=== FILE: README.md ===
# Short-link resolution core, modelled in Dafny

This project models the request-resolution core of a small URL shortener: the
self-expiring local cache (`AutoDeleteMap`) and the three handlers of the
short-link service (`Shorten`, `Redirect`, `Stats`, with `generateShortCode`).
Everything is a pure transition over plain data:

- `LinkStore` — the Redis keyspace as one map whose entries are strings,
  integer counters or hashes, with the commands the service issues (GET, SET,
  HGET, HSET, INCR). Every command takes a `fails` flag standing for a
  connection or server error. The keys are `short:short:<code>` (mapping),
  `short:stats:<code>` (counter bumped by redirects), `stats:<code>` (key read
  by the statistics handler) and `short:link` (the link index hash).
- `Decimal` — the decimal text under which the store reports an integer, and
  its parse, so that "the count is N" can be stated about a string reply.
- `AutoDeleteMap` — the cache as entries plus a sequence of pending deletions
  `(key, due)`. `Set` stores now and schedules one deletion; `Fire` runs any
  one pending deletion; `Expire` runs every deletion due by a given clock time.
- `Query` — merging the request's raw query into a redirect target, checked
  against an independent split of a URL into path and query at its first `?`.
- `Service` — the handlers as the code is written, over a `World` of store,
  cache and clock; `Env` holds the base website, the code length, the cache
  time-to-live and the MD5 digest as an uninterpreted function.
- `Intended` — corrected versions of three handlers, one per finding below.

Where the code does something other than what it appears to do, the model
follows the code: an unknown code redirects to the empty target, not to
`website/code`; the index call at `main.go:80` carries no field/value pair,
so it records nothing and the server refuses it, which makes every
fresh-code `Shorten` answer an error after storing the link; the visit count
is bumped synchronously under `short:stats:<code>` while the statistics
handler reads `stats:<code>`.

## Model

| member | source | states |
|---|---|---|
| AutoDeleteMap.Load | main.go:107 | the cache lookup yields a value exactly when the key is present, and then the value stored under it |
| AutoDeleteMap.Set | tools/auto_del_map.go:12-17 | right after a store the key loads the new value, overwriting any older one; every other key loads as before; exactly one deletion of that key, due `ttl` later, is added and none of the earlier ones is removed |
| AutoDeleteMap.Fire | tools/auto_del_map.go:14-17 | a scheduled deletion removes its key whatever value it holds by then; no other key changes; firing for an absent key leaves the entries unchanged; that deletion leaves the pending ones |
| AutoDeleteMap.Expire | tools/auto_del_map.go:14-17 | once the clock reaches `now` a key is gone exactly when some deletion of it is due by then; the deletions still pending are those due later, in the order they were scheduled |
| AutoDeleteMap.WaitingCounts | tools/auto_del_map.go:14-17 | no deletion is cancelled: every deletion not yet due is still pending, as many times as it was scheduled, and none that is due remains |
| AutoDeleteMap.FireDueThenExpire | tools/auto_del_map.go:14-17 | running one due deletion on its own first leads to the same cache contents when the clock arrives, so the order in which due deletions run does not matter |
| AutoDeleteMap.VisibleUntilEarliestDeletion | tools/auto_del_map.go:13-17 | a value set with time-to-live `ttl` stays visible at every time before `ttl` has passed, provided no earlier deletion of the same key is due |
| AutoDeleteMap.GoneOnceADeletionIsDue | tools/auto_del_map.go:15-16 | once any deletion scheduled for a key is due, that key is absent |
| AutoDeleteMap.EarlierDeletionEvictsLaterValue | tools/auto_del_map.go:13-17 | the premature-eviction race: after storing a key twice, the first store's deletion removes the second value before that value's own time-to-live has run out |
| AutoDeleteMap.EveryEntryScheduledPreserved | tools/auto_del_map.go:12-17 | storing, firing and expiring keep the invariant that every cached key has a deletion pending |
| AutoDeleteMap.EveryEntryEventuallyExpires | tools/auto_del_map.go:14-17 | under that invariant every cached key is absent from some clock time on, at every time after it as well |
| LinkStore.Get | main.go:111 | GET answers Nil exactly for a missing key with no failure, fails on a failed call or a hash, returns a string as stored and a counter as decimal text that parses back to its value |
| LinkStore.Text | main.go:111 | the string a read hands back when its error is ignored: the reply's text on success, empty on a missing key or a failure |
| LinkStore.SetString | main.go:72 | a successful SET makes GET return the written string and touches no other key; a failed one changes nothing |
| LinkStore.HGet | main.go:171 | HGET yields a value exactly when the call succeeds and the hash holds the field, and then that field's value |
| LinkStore.HSet | main.go:80 | the HSET that line 80 evidently means, used only by the corrected Shorten (the call as written, with no pair, is modelled inside Service.Shorten as always refused): an HSET with a field/value pair succeeds on an absent key or a hash, then reads back that value for that field and leaves other fields and keys alone |
| LinkStore.Incr | main.go:128 | INCR succeeds exactly when the call does not fail and the key is absent or a counter below 2^63-1; success adds exactly one and leaves it a counter; failure changes nothing; no other key changes |
| LinkStore.IncrThenGet | main.go:128 | after a successful INCR a GET of the key reads back as one more than the count before |
| Query.MergeQuery | main.go:118-125 | the target is a prefix of the result; the result equals the target exactly when the raw query is empty; otherwise it ends with the raw query, one separator character longer |
| Query.MergeQuerySplits | main.go:118-125 | merging keeps the part before the first `?`; the raw query becomes the whole query of a target without `?` and is appended after `&` to an existing query |
| Query.MergeQueryExamples | main.go:118-125 | `http://h/p` with `x=1` gives `http://h/p?x=1`; `http://h/p?y=2` with `x=1` gives `http://h/p?y=2&x=1` |
| Service.GenerateShortCode | main.go:168-177 | the code is reused (not new) exactly when the index lookup succeeds and the `short:link` hash holds the URL's digest, and then it is the stored code; on any other outcome it is new and is the first `codeLength` characters of the UUID text; requires `codeLength <= 36` |
| Service.ResultUrl | main.go:89-94 | the short URL is the chosen domain, a `/`, then the code; the domain is the custom one when it is non-empty and the base website otherwise |
| Service.Shorten | main.go:59-99 | empty long URL gives BadRequest and nothing changes; a reused code writes nothing and answers the short URL; a failed mapping write answers an error with nothing written or cached; otherwise the mapping is readable and the cache holds the URL with one new deletion, and the answer is SaveIndexFailed, because the index call with no field/value pair is always refused; the short URL is under the custom domain when one is given, else the base website |
| Service.Redirect | main.go:102-131 | a cache hit redirects to the cached value and changes neither cache nor any store key but the counter; a miss redirects to what the store read yields (empty on a missing key or failed read) and caches that same value with one new deletion; the query is merged; the `short:stats:` counter rises by exactly one unless the increment is refused, in which case the store is left as it was, and nothing else in the store changes |
| Service.Advance | tools/auto_del_map.go:14-17 | moving the clock to `t` leaves the store alone and removes exactly the cache entries with a deletion due by `t`, changing no other entry; no deletion is cancelled: the pending ones are exactly those due after `t`, in their order |
| Service.Stats | main.go:134-162 | NotFound, carrying no count, exactly when the mapping is missing and the read succeeds; an error exactly when the mapping read fails; otherwise the short URL under the base website, the stored long URL and the visit count read at `stats:<code>`, `"0"` when that key is missing |
| Service.StatsReportsCounter | main.go:148-155 | the reported count is the decimal rendering of the counter at `stats:<code>`, so an absent counter reads the same as a zero one |
| Service.RedirectMissUsesMapping | main.go:109-115 | on a miss with a stored mapping and a working store, the redirect goes to that mapping (with the query) and the cache then holds it |
| Service.RedirectIgnoresCounterFailure | main.go:127-130 | a refused increment changes neither the redirect target nor the cache, and leaves the store as it was |
| Service.ShortenThenRedirect | main.go:72-115 | a link created with a fresh code redirects to its long URL at any later clock time, whether or not its cache entry has expired, as long as the store can be read |
| Service.RedirectFailureIsCached | main.go:109-115 | a failed store read on a miss redirects to the empty target and caches it, so the next redirect goes to the bare query even if the store holds a mapping |
| Service.RedirectsAreCounted | main.go:128 | N redirects without failures raise the `short:stats:` counter by exactly N and change no other store key |
| Service.StatsAfterShorten | main.go:69-161 | right after a fresh-code creation, Stats answers the base-website short URL, the long URL and the count already at `stats:<code>` |
| Service.ShortenNeverIndexes | main.go:80 | no Shorten, whatever its inputs and failures, changes any field of the `short:link` hash |
| Service.RepeatedShortenGetsFreshCodes | main.go:69-94 | with no index entry for a URL, shortening it twice with different UUID prefixes: both answers are SaveIndexFailed, the second request still draws a fresh code, the URL ends up stored under two different codes, and the index still has no entry for it |
| Service.RedirectUnknownCodeGoesNowhere | main.go:105-114 | a code neither cached nor stored redirects to the bare query and the empty target is cached for it |
| Service.StatsIgnoresRedirects | main.go:128-155 | no redirect of any code changes any Stats answer |
| Intended.ShortenIntended | main.go:78-86 | as Shorten for an empty URL, a reused code and a failed save; with a fresh code and a successful save the mapping and cache entry are written, and the answer is the short URL exactly when the index write succeeds (a working call on an absent key or a hash), after which the `short:link` hash maps the URL's digest to that code, while a refused index write leaves every key but the mapping as it was; no store key but the mapping and the index changes, no other field of the index changes, and the clock does not move |
| Intended.ShortenIntendedIdempotent | main.go:69-86 | after one successful shorten, shortening the same URL again writes nothing and answers the same short URL |
| Intended.RedirectIntended | main.go:105-115 | a cache hit uses the cached value and changes no cache entry; on a miss the target is the stored text when the read yields one and `website/code` otherwise, and that target is cached with one new deletion, other entries unchanged; the counter rises by one unless refused, a refused increment leaves the store as it was, and no other store key changes; the clock does not move |
| Intended.RedirectFallsBack | main.go:105 | an unknown code redirects to `website/code` plus the query |
| Intended.FallbackExample | main.go:105 | with website `http://example.com`, unknown code `zzz` redirects to `http://example.com/zzz` |
| Intended.StatsIntended | main.go:148-155 | NotFound exactly when the mapping is missing and the read works; an error exactly when the mapping read fails; OK exactly when the mapping reads and the count read does not fail, with the count read at the `short:stats:` key Redirect bumps, `"0"` when absent |
| Intended.StatsIntendedReportsCounter | main.go:148-155 | the reported count is the decimal rendering of the bumped counter |
| Intended.StatsIntendedCountsRedirects | main.go:128-155 | N redirects of a never-visited code are reported as a visit count of N |

## Left out

- tools/syncgo.go (`GoSafe`, `RunSafe`, `Recover`): goroutine spawning and panic recovery; a scheduled deletion here never fails.
- HTTP plumbing: status codes, `Healthy`, route registration and `main`. JSON binding is reduced to its one effect on the model: an empty `long_url` is a BadRequest. A malformed body is not modelled.
- Configuration loading (`initConf`, `Config`): replaced by the `Env` record. The base URL of the service and `base.website` are the same value at startup, so both are `Env.website`.
- Redis client construction and wire behaviour: every command is one atomic map operation with a failure flag. The one exception is the index call at `main.go:80`: the client library sends `HSET short:link <url>` unchanged and the server refuses an HSET without a field/value pair for its arity, so that call is modelled as always refused and writes nothing.
- LinkStore.Incr: a string value that spells an integer is refused rather than incremented as Redis would; the service never stores a string under a counter key.
- UUID generation: the UUID's canonical text is an input of length 36; its hexadecimal format is not modelled.
- MD5 (RFC 1321) and its lower-case hex encoding: `Env.md5` is an arbitrary function, so every property holds for any digest.
- Real time: the clock is an abstract integer. The conversion of the cache time in minutes to a 64-bit nanosecond duration, and its overflow, is not modelled.
- Concurrency: requests are modelled one at a time, so interleavings of concurrent requests (two simultaneous creations of one URL) are not modelled. Goroutine scheduling delay is covered only by `Fire`, which may run any pending deletion. `Expire` runs every deletion that is due.
- Findings: only the three corrections listed there are modelled; the rest of `Intended` reuses the as-written code generation and cache.

## Findings

| source | as written | input that shows it | evidently intended | confidence | as-written member | corrected member |
|---|---|---|---|---|---|---|
| main.go:80 | `HSet` on `short:link` is given the long URL and no field/value pair, so no digest-to-code entry is ever recorded (and the server refuses the call), and the reuse branch of code generation is never reached through this service | shorten one URL twice with an empty index: both answers are errors, and the URL is stored under two different codes | record `md5(long_url) -> code` so a repeat request reuses the code | not executed; high | Service.RepeatedShortenGetsFreshCodes | Intended.ShortenIntendedIdempotent |
| main.go:105-111 | the fallback `website/code` set at line 105 is overwritten by the store read, which yields `""` on a missing key | redirect unknown code `zzz` with empty query: the handler's redirect target is `""` (which the HTTP library resolves against the request path, sending `/`), and `""` is cached | redirect an unknown code to `website/code` | not executed; high | Service.RedirectUnknownCodeGoesNowhere | Intended.RedirectFallsBack |
| main.go:128-149 | visits are counted under `short:stats:<code>` but Stats reads `stats:<code>` | N redirects of a fresh code, then Stats: visit count `"0"` | Stats reports N | not executed; high | Service.StatsIgnoresRedirects | Intended.StatsIntendedCountsRedirects |

=== FILE: auto_del_map.dfy ===
/**
 * The process-local cache (tools.AutoDeleteMap): storing a value schedules one
 * deletion of its key a fixed time later. Deletions are never cancelled, and a
 * deletion removes the key whatever value it holds by then.
 *
 * The sleeping goroutines become a sequence of pending deletions; time is an
 * abstract clock. `Fire` runs any one pending deletion, `Expire` runs every
 * deletion that is due at a given time.
 */
module AutoDeleteMap {
  import opened Wrappers

  /** A deletion of `key` scheduled to run once the clock reaches `due`. */
  datatype Pending = Pending(key: string, due: int)

  datatype Cache = Cache(entries: map<string, string>, pending: seq<Pending>)

  /** Load: the value stored under `key`, if any. */
  function Load(c: Cache, key: string): (r: Option<string>)
    ensures r.Some? <==> key in c.entries
    ensures r.Some? ==> r.value == c.entries[key]
  {
    if key in c.entries then Some(c.entries[key]) else None
  }

  /**
   * Set at time `now`: the value is visible at once, over any earlier one, and
   * exactly one deletion of `key`, due at `now + ttl`, joins the pending ones.
   */
  function Set(c: Cache, key: string, value: string, now: int, ttl: int): (r: Cache)
    ensures Load(r, key) == Some(value)
    ensures forall k :: k != key ==> Load(r, k) == Load(c, k)
    ensures r.pending == c.pending + [Pending(key, now + ttl)]
  {
    Cache(c.entries[key := value], c.pending + [Pending(key, now + ttl)])
  }

  /**
   * One scheduled deletion runs: its key is gone, whatever value it held and
   * whenever that value was stored; no other key changes.
   */
  function Fire(c: Cache, i: nat): (r: Cache)
    requires i < |c.pending|
    ensures Load(r, c.pending[i].key) == None
    ensures forall k :: k != c.pending[i].key ==> Load(r, k) == Load(c, k)
    ensures c.pending[i].key !in c.entries ==> r.entries == c.entries
    ensures r.pending == c.pending[..i] + c.pending[i + 1..]
  {
    Cache(c.entries - {c.pending[i].key}, c.pending[..i] + c.pending[i + 1..])
  }

  /** The keys that some deletion due by `now` will remove. */
  function DueKeys(ps: seq<Pending>, now: int): set<string> {
    set i | 0 <= i < |ps| && ps[i].due <= now :: ps[i].key
  }

  lemma DueKeysCons(ps: seq<Pending>, now: int)
    requires ps != []
    ensures DueKeys(ps, now) ==
      (if ps[0].due <= now then {ps[0].key} else {}) + DueKeys(ps[1..], now)
  {
  }

  /** The deletions not yet due at `now`, in the order they were scheduled. */
  function Waiting(ps: seq<Pending>, now: int): seq<Pending> {
    if ps == [] then [] else (if ps[0].due > now then [ps[0]] else []) + Waiting(ps[1..], now)
  }

  /** No deletion is cancelled: each one not yet due is still pending, as many times as it was scheduled. */
  lemma {:induction false} WaitingCounts(ps: seq<Pending>, now: int)
    ensures forall q :: multiset(Waiting(ps, now))[q] == if q.due > now then multiset(ps)[q] else 0
  {
    if ps != [] {
      WaitingCounts(ps[1..], now);
      var kept := Waiting(ps[1..], now);
      assert ps == [ps[0]] + ps[1..];
      assert multiset(ps) == multiset{ps[0]} + multiset(ps[1..]);
      assert multiset(Waiting(ps, now)) ==
        (if ps[0].due > now then multiset{ps[0]} else multiset{}) + multiset(kept);
    }
  }

  /**
   * The clock reaches `now`: every deletion due by then has run. A key is gone
   * as soon as ANY of its deletions is due, and the deletions still pending are
   * those due later, in order (see WaitingCounts).
   */
  function Expire(c: Cache, now: int): (r: Cache)
    ensures r.entries == c.entries - DueKeys(c.pending, now)
    ensures r.pending == Waiting(c.pending, now)
    decreases |c.pending|
  {
    if c.pending == [] then c
    else
      var p := c.pending[0];
      var rest := Expire(Cache(if p.due <= now then c.entries - {p.key} else c.entries, c.pending[1..]), now);
      DueKeysCons(c.pending, now);
      if p.due <= now then
        assert [] + rest.pending == rest.pending;
        rest
      else Cache(rest.entries, [p] + rest.pending)
  }

  /** Taking one due deletion out of the pending ones loses only its own key. */
  lemma DueKeysWithout(ps: seq<Pending>, i: nat, now: int)
    requires i < |ps| && ps[i].due <= now
    ensures DueKeys(ps[..i] + ps[i + 1..], now) + {ps[i].key} == DueKeys(ps, now)
  {
    var qs := ps[..i] + ps[i + 1..];
    forall k | k in DueKeys(qs, now) ensures k in DueKeys(ps, now) {
      var j :| 0 <= j < |qs| && qs[j].due <= now && qs[j].key == k;
      if j < i {
        assert qs[j] == ps[j];
      } else {
        assert qs[j] == ps[j + 1];
      }
    }
    forall k | k in DueKeys(ps, now) && k != ps[i].key ensures k in DueKeys(qs, now) {
      var j :| 0 <= j < |ps| && ps[j].due <= now && ps[j].key == k;
      if j < i {
        assert qs[j] == ps[j];
      } else {
        assert qs[j - 1] == ps[j];
      }
    }
  }

  /** Running a due deletion by itself first changes nothing about where the clock leads. */
  lemma FireDueThenExpire(c: Cache, i: nat, now: int)
    requires i < |c.pending| && c.pending[i].due <= now
    ensures Expire(Fire(c, i), now).entries == Expire(c, now).entries
  {
    DueKeysWithout(c.pending, i, now);
  }

  /**
   * Lower bound: a value set at `now` with time-to-live `ttl` is still there at
   * any time before `now + ttl`, provided no earlier deletion of the same key is
   * due by then.
   */
  lemma VisibleUntilEarliestDeletion(c: Cache, key: string, value: string, now: int, ttl: int, t: int)
    requires t < now + ttl
    requires forall i :: 0 <= i < |c.pending| && c.pending[i].key == key ==> t < c.pending[i].due
    ensures Load(Expire(Set(c, key, value, now, ttl), t), key) == Some(value)
  {
  }

  /** Upper bound: once any deletion of a key is due, the key is gone. */
  lemma GoneOnceADeletionIsDue(c: Cache, i: nat, t: int)
    requires i < |c.pending| && c.pending[i].due <= t
    ensures Load(Expire(c, t), c.pending[i].key) == None
  {
  }

  /**
   * The premature-eviction race: storing a key twice leaves the first deletion
   * pending, and when it is due it removes the second value too, although that
   * value's own time-to-live has not run out.
   */
  lemma EarlierDeletionEvictsLaterValue(c: Cache, key: string, v1: string, v2: string,
                                        t1: int, t2: int, ttl: int, t: int)
    requires t1 + ttl <= t < t2 + ttl
    ensures Load(Expire(Set(Set(c, key, v1, t1, ttl), key, v2, t2, ttl), t), key) == None
  {
    var c2 := Set(Set(c, key, v1, t1, ttl), key, v2, t2, ttl);
    assert c2.pending[|c.pending|] == Pending(key, t1 + ttl);
    GoneOnceADeletionIsDue(c2, |c.pending|, t);
  }

  /** Every stored key has at least one deletion pending. */
  ghost predicate EveryEntryScheduled(c: Cache) {
    forall k :: k in c.entries ==> exists i :: 0 <= i < |c.pending| && c.pending[i].key == k
  }

  lemma SetKeepsEveryEntryScheduled(c: Cache, key: string, value: string, now: int, ttl: int)
    requires EveryEntryScheduled(c)
    ensures EveryEntryScheduled(Set(c, key, value, now, ttl))
  {
    var s := Set(c, key, value, now, ttl);
    forall k | k in s.entries ensures exists j :: 0 <= j < |s.pending| && s.pending[j].key == k {
      if k == key {
        assert s.pending[|c.pending|].key == k;
      } else {
        var j :| 0 <= j < |c.pending| && c.pending[j].key == k;
        assert s.pending[j] == c.pending[j];
      }
    }
  }

  lemma FireKeepsEveryEntryScheduled(c: Cache, i: nat)
    requires EveryEntryScheduled(c) && i < |c.pending|
    ensures EveryEntryScheduled(Fire(c, i))
  {
    var f := Fire(c, i);
    forall k | k in f.entries ensures exists j :: 0 <= j < |f.pending| && f.pending[j].key == k {
      var j :| 0 <= j < |c.pending| && c.pending[j].key == k;
      if j < i {
        assert f.pending[j] == c.pending[j];
      } else {
        assert j != i;
        assert f.pending[j - 1] == c.pending[j];
      }
    }
  }

  /** A deletion that is not yet due is still among the waiting ones. */
  lemma WaitingKeeps(ps: seq<Pending>, now: int, j: nat)
    requires j < |ps| && ps[j].due > now
    ensures exists m :: 0 <= m < |Waiting(ps, now)| && Waiting(ps, now)[m] == ps[j]
  {
    WaitingCounts(ps, now);
    assert ps[j] in multiset(ps);
    assert ps[j] in multiset(Waiting(ps, now));
    assert ps[j] in Waiting(ps, now);
  }

  lemma ExpireKeepsEveryEntryScheduled(c: Cache, t: int)
    requires EveryEntryScheduled(c)
    ensures EveryEntryScheduled(Expire(c, t))
  {
    var e := Expire(c, t);
    forall k | k in e.entries ensures exists m :: 0 <= m < |e.pending| && e.pending[m].key == k {
      var j :| 0 <= j < |c.pending| && c.pending[j].key == k;
      assert c.pending[j].due <= t ==> k in DueKeys(c.pending, t);
      WaitingKeeps(c.pending, t, j);
    }
  }

  /** Storing, firing and expiring all keep every cached key scheduled for deletion. */
  lemma EveryEntryScheduledPreserved(c: Cache, key: string, value: string, now: int, ttl: int, i: nat, t: int)
    requires EveryEntryScheduled(c)
    ensures EveryEntryScheduled(Set(c, key, value, now, ttl))
    ensures i < |c.pending| ==> EveryEntryScheduled(Fire(c, i))
    ensures EveryEntryScheduled(Expire(c, t))
  {
    SetKeepsEveryEntryScheduled(c, key, value, now, ttl);
    if i < |c.pending| {
      FireKeepsEveryEntryScheduled(c, i);
    }
    ExpireKeepsEveryEntryScheduled(c, t);
  }

  /** The key is absent at every clock time from `d` on. */
  ghost predicate GoneFrom(c: Cache, key: string, d: int) {
    forall t :: d <= t ==> Load(Expire(c, t), key) == None
  }

  /** Eventual absence: every key the cache holds is gone from some time on, for good. */
  lemma EveryEntryEventuallyExpires(c: Cache, key: string)
    requires EveryEntryScheduled(c) && key in c.entries
    ensures exists d :: GoneFrom(c, key, d)
  {
    var i :| 0 <= i < |c.pending| && c.pending[i].key == key;
    forall t | c.pending[i].due <= t
      ensures Load(Expire(c, t), key) == None
    {
      GoneOnceADeletionIsDue(c, i, t);
    }
    assert GoneFrom(c, key, c.pending[i].due);
  }
}

=== FILE: decimal.dfy ===
/**
 * The decimal text under which the store reports an integer value
 * (what a GET of a counter key returns), and its inverse.
 */
module Decimal {

  predicate IsDigits(s: string) {
    forall i :: 0 <= i < |s| ==> '0' <= s[i] <= '9'
  }

  function DigitChar(d: nat): char
    requires d < 10
  {
    ('0' as int + d) as char
  }

  /** Unsigned decimal rendering without leading zeros. */
  function Render(n: nat): (s: string)
    ensures 1 <= |s| && IsDigits(s)
    ensures s[0] == '0' <==> n == 0
    decreases n
  {
    if n < 10 then [DigitChar(n)] else Render(n / 10) + [DigitChar(n % 10)]
  }

  /** Reads a string of digits back as a number. */
  function Parse(s: string): nat
    requires IsDigits(s)
  {
    if s == [] then 0 else Parse(s[..|s| - 1]) * 10 + (s[|s| - 1] as int - '0' as int)
  }

  /** Rendering loses nothing: parsing the text gives the number back. */
  lemma {:induction false} ParseRender(n: nat)
    ensures Parse(Render(n)) == n
    decreases n
  {
    if n >= 10 {
      var s := Render(n);
      assert s[..|s| - 1] == Render(n / 10);
      ParseRender(n / 10);
    }
  }
}

=== FILE: intended.dfy ===
/**
 * The three handlers as their code evidently means them, each next to the
 * property the written code misses: the index records digest to code, an
 * unknown code falls back to a same-site path, and Stats reads the counter
 * that Redirect bumps.
 */
module Intended {
  import opened Wrappers
  import opened LinkStore
  import opened Query
  import opened Service
  import AutoDeleteMap
  import Decimal

  /** Shorten with the index call recording digest to code. */
  function ShortenIntended(env: Env, w: World, req: ShortenRequest, uuid: string,
                           lookupFails: bool, saveFails: bool, indexFails: bool): (r: Shortening)
    requires |uuid| == UuidLength && env.codeLength <= UuidLength
    ensures r.response.BadRequest? <==> req.longUrl == ""
    ensures req.longUrl == "" ==> r.world == w
    ensures r.world.now == w.now
    ensures var g := GenerateShortCode(env, w.store, req.longUrl, uuid, lookupFails);
      r.world.store.keys - {LinkIndexKey, MappingKey(g.code)} == w.store.keys - {LinkIndexKey, MappingKey(g.code)}
    ensures forall f :: f != env.md5(req.longUrl) ==> HashField(r.world.store, LinkIndexKey, f) == HashField(w.store, LinkIndexKey, f)
    ensures var g := GenerateShortCode(env, w.store, req.longUrl, uuid, lookupFails);
      req.longUrl != "" && !g.isNew ==> r.world == w && r.response == Shortened(ResultUrl(env, req, g.code))
    ensures var g := GenerateShortCode(env, w.store, req.longUrl, uuid, lookupFails);
      req.longUrl != "" && g.isNew && saveFails ==> r.world == w && r.response == SaveMappingFailed
    ensures var g := GenerateShortCode(env, w.store, req.longUrl, uuid, lookupFails);
      req.longUrl != "" && g.isNew && !saveFails ==>
        && Get(r.world.store, MappingKey(g.code), false) == Value(req.longUrl)
        && AutoDeleteMap.Load(r.world.cache, g.code) == Some(req.longUrl)
        && (forall k :: k != g.code ==> AutoDeleteMap.Load(r.world.cache, k) == AutoDeleteMap.Load(w.cache, k))
        && r.world.cache.pending == w.cache.pending + [AutoDeleteMap.Pending(g.code, w.now + env.cacheTtl)]
        && r.response ==
             (if !indexFails && (LinkIndexKey !in w.store.keys || w.store.keys[LinkIndexKey].Hash?)
              then Shortened(ResultUrl(env, req, g.code)) else SaveIndexFailed)
        && (r.response.SaveIndexFailed? ==>
              r.world.store.keys - {MappingKey(g.code)} == w.store.keys - {MappingKey(g.code)})
    ensures var g := GenerateShortCode(env, w.store, req.longUrl, uuid, lookupFails);
      r.response.Shortened? ==>
        && r.response.shortUrl == ResultUrl(env, req, g.code)
        && HashField(r.world.store, LinkIndexKey, env.md5(req.longUrl)) == Some(g.code)
  {
    if req.longUrl == "" then Shortening(w, BadRequest)
    else
      var g := GenerateShortCode(env, w.store, req.longUrl, uuid, lookupFails);
      if !g.isNew then Shortening(w, Shortened(ResultUrl(env, req, g.code)))
      else
        var saved := SetString(w.store, MappingKey(g.code), req.longUrl, saveFails);
        if !saved.ok then Shortening(w, SaveMappingFailed)
        else
          var cache := AutoDeleteMap.Set(w.cache, g.code, req.longUrl, w.now, env.cacheTtl);
          var indexed := HSet(saved.store, LinkIndexKey, env.md5(req.longUrl), g.code, indexFails);
          var w' := World(indexed.store, cache, w.now);
          if indexed.ok then Shortening(w', Shortened(ResultUrl(env, req, g.code)))
          else Shortening(w', SaveIndexFailed)
  }

  /**
   * Idempotence: once a Shorten for a URL has succeeded, shortening it again
   * (with a readable index) writes nothing and answers the same short URL.
   */
  lemma ShortenIntendedIdempotent(env: Env, w: World, req: ShortenRequest, uuid1: string, uuid2: string,
                                  lookupFails: bool, saveFails: bool, indexFails: bool,
                                  saveFails2: bool, indexFails2: bool)
    requires |uuid1| == UuidLength && |uuid2| == UuidLength && env.codeLength <= UuidLength
    requires ShortenIntended(env, w, req, uuid1, lookupFails, saveFails, indexFails).response.Shortened?
    ensures var first := ShortenIntended(env, w, req, uuid1, lookupFails, saveFails, indexFails);
      var second := ShortenIntended(env, first.world, req, uuid2, false, saveFails2, indexFails2);
      second.response == first.response && second.world == first.world
  {
  }

  /** Redirect with the same-site fallback kept when the store yields no target. */
  function RedirectIntended(env: Env, w: World, code: string, rawQuery: string,
                            lookupFails: bool, incrFails: bool): (r: Redirection)
    ensures r.world.now == w.now
    ensures r.world.store.keys - {CounterKey(code)} == w.store.keys - {CounterKey(code)}
    ensures AutoDeleteMap.Load(w.cache, code).Some? ==>
      && r.world.cache == w.cache
      && r.location == MergeQuery(AutoDeleteMap.Load(w.cache, code).value, rawQuery)
    ensures AutoDeleteMap.Load(w.cache, code).None? ==>
      var read := Get(w.store, MappingKey(code), lookupFails);
      var target := if read.Value? then read.text else env.website + "/" + code;
      && r.location == MergeQuery(target, rawQuery)
      && AutoDeleteMap.Load(r.world.cache, code) == Some(target)
      && (forall k :: k != code ==> AutoDeleteMap.Load(r.world.cache, k) == AutoDeleteMap.Load(w.cache, k))
      && r.world.cache.pending == w.cache.pending + [AutoDeleteMap.Pending(code, w.now + env.cacheTtl)]
    ensures CountAt(r.world.store, CounterKey(code)) ==
      CountAt(w.store, CounterKey(code)) + (if !incrFails && CanIncrement(w.store, CounterKey(code)) then 1 else 0)
    ensures incrFails || !CanIncrement(w.store, CounterKey(code)) ==> r.world.store == w.store
  {
    var fallback := env.website + "/" + code;
    var (target, cache) :=
      match AutoDeleteMap.Load(w.cache, code)
      case Some(v) => (v, w.cache)
      case None =>
        var v := match Get(w.store, MappingKey(code), lookupFails)
          case Value(s) => s
          case _ => fallback;
        (v, AutoDeleteMap.Set(w.cache, code, v, w.now, env.cacheTtl));
    var counted := Incr(w.store, CounterKey(code), incrFails);
    Redirection(World(counted.store, cache, w.now), MergeQuery(target, rawQuery))
  }

  /** An unknown code lands on the same site: `website/code`, plus the query. */
  lemma RedirectFallsBack(env: Env, w: World, code: string, rawQuery: string, incrFails: bool)
    requires AutoDeleteMap.Load(w.cache, code).None? && MappingKey(code) !in w.store.keys
    ensures RedirectIntended(env, w, code, rawQuery, false, incrFails).location
              == MergeQuery(env.website + "/" + code, rawQuery)
  {
  }

  /** With base website http://example.com, unknown code zzz goes to http://example.com/zzz. */
  lemma FallbackExample(w: World, codeLength: nat, cacheTtl: int, md5: string -> string, incrFails: bool)
    requires AutoDeleteMap.Load(w.cache, "zzz").None? && MappingKey("zzz") !in w.store.keys
    ensures RedirectIntended(Env("http://example.com", codeLength, cacheTtl, md5), w, "zzz", "", false, incrFails).location
              == "http://example.com/zzz"
  {
  }

  /** Stats reading the counter that Redirect bumps. */
  function StatsIntended(env: Env, st: Store, code: string, lookupFails: bool, countFails: bool): (r: StatsResponse)
    ensures r.NotFound? <==> !lookupFails && MappingKey(code) !in st.keys
    ensures r.LookupFailed? <==> Get(st, MappingKey(code), lookupFails).Failed?
    ensures r.StatsOk? <==> Get(st, MappingKey(code), lookupFails).Value? && !Get(st, CounterKey(code), countFails).Failed?
    ensures r.StatsOk? ==>
      && r.shortUrl == env.website + "/" + code
      && Get(st, MappingKey(code), false) == Value(r.longUrl)
      && r.visitCount == (if CounterKey(code) in st.keys then Text(Get(st, CounterKey(code), false)) else "0")
  {
    match Get(st, MappingKey(code), lookupFails)
    case Nil => NotFound
    case Failed => LookupFailed
    case Value(longUrl) =>
      match Get(st, CounterKey(code), countFails)
      case Failed => CountFailed
      case Nil => StatsOk(env.website + "/" + code, longUrl, "0")
      case Value(count) => StatsOk(env.website + "/" + code, longUrl, count)
  }

  /** The count StatsIntended reports is the bumped counter's value; an absent counter reads as zero. */
  lemma StatsIntendedReportsCounter(env: Env, st: Store, code: string)
    requires MappingKey(code) in st.keys && st.keys[MappingKey(code)].Str?
    requires CounterKey(code) !in st.keys || st.keys[CounterKey(code)].Counter?
    ensures StatsIntended(env, st, code, false, false)
              == StatsOk(env.website + "/" + code, st.keys[MappingKey(code)].text, Decimal.Render(CountAt(st, CounterKey(code))))
  {
  }

  /** N redirects of a code never visited before are reported as a visit count of N. */
  lemma StatsIntendedCountsRedirects(env: Env, w: World, code: string, queries: seq<string>)
    requires MappingKey(code) in w.store.keys && w.store.keys[MappingKey(code)].Str?
    requires CounterKey(code) !in w.store.keys
    requires |queries| <= Int64Max
    ensures StatsIntended(env, RedirectAll(env, w, code, queries).store, code, false, false)
              == StatsOk(env.website + "/" + code, w.store.keys[MappingKey(code)].text, Decimal.Render(|queries|))
  {
    var after := RedirectAll(env, w, code, queries).store;
    RedirectsAreCounted(env, w, code, queries);
    KeyFamiliesDisjoint(code, code);
    assert MappingKey(code) in after.keys - {CounterKey(code)};
    assert after.keys[MappingKey(code)] == w.store.keys[MappingKey(code)];
    StatsIntendedReportsCounter(env, after, code);
  }
}

=== FILE: link_store.dfy ===
/**
 * The durable key-value store (a Redis server) as plain data: one keyspace whose
 * entries are strings, integer counters or hashes. Every command takes a `fails`
 * flag that stands for a connection or server error.
 */
module LinkStore {
  import opened Wrappers
  import Decimal

  /** INCR refuses to go past the largest signed 64-bit integer. */
  const Int64Max: nat := 0x7FFF_FFFF_FFFF_FFFF

  datatype Entry = Str(text: string) | Counter(count: nat) | Hash(fields: map<string, string>)

  datatype Store = Store(keys: map<string, Entry>)

  /** Reply to a read: a value, the "no such key" reply, or an error. */
  datatype Reply = Value(text: string) | Nil | Failed

  /** Store after a write, and whether the command succeeded. */
  datatype Written = Written(store: Store, ok: bool)

  /** The key families the service uses. */
  function MappingKey(code: string): string { "short:short:" + code }
  function CounterKey(code: string): string { "short:stats:" + code }
  function StatsKey(code: string): string { "stats:" + code }
  const LinkIndexKey: string := "short:link"

  /** No key of one family is ever a key of another family. */
  lemma KeyFamiliesDisjoint(a: string, b: string)
    ensures MappingKey(a) != CounterKey(b)
    ensures MappingKey(a) != StatsKey(b)
    ensures CounterKey(a) != StatsKey(b)
    ensures LinkIndexKey != MappingKey(a)
    ensures LinkIndexKey != CounterKey(a)
    ensures LinkIndexKey != StatsKey(a)
  {
    assert MappingKey(a)[7] == 'h' && CounterKey(b)[7] == 't';
    assert MappingKey(a)[1] == 'h' && StatsKey(b)[1] == 't';
    assert CounterKey(a)[1] == 'h';
    assert LinkIndexKey[6] == 'l' && MappingKey(a)[6] == 's' && CounterKey(a)[6] == 's';
    assert LinkIndexKey[1] == 'h' && StatsKey(a)[1] == 't';
  }

  /** Within one family, the key determines the code. */
  lemma KeysInjective(a: string, b: string)
    ensures MappingKey(a) == MappingKey(b) ==> a == b
    ensures CounterKey(a) == CounterKey(b) ==> a == b
    ensures StatsKey(a) == StatsKey(b) ==> a == b
  {
    assert MappingKey(a)[12..] == a && MappingKey(b)[12..] == b;
    assert CounterKey(a)[12..] == a && CounterKey(b)[12..] == b;
    assert StatsKey(a)[6..] == a && StatsKey(b)[6..] == b;
  }

  /** The value of a counter, zero when the key is absent. */
  function CountAt(st: Store, key: string): nat {
    if key in st.keys && st.keys[key].Counter? then st.keys[key].count else 0
  }

  /** The field of the hash at `key`, if that key holds a hash with the field. */
  function HashField(st: Store, key: string, field: string): Option<string> {
    if key in st.keys && st.keys[key].Hash? && field in st.keys[key].fields
    then Some(st.keys[key].fields[field])
    else None
  }

  /** The string value of a reply as the client library hands it out: empty on any error. */
  function Text(r: Reply): (t: string)
    ensures r.Value? ==> t == r.text
    ensures !r.Value? ==> t == ""
  {
    if r.Value? then r.text else ""
  }

  /** GET: a string, or the decimal text of a counter; a hash is the wrong type. */
  function Get(st: Store, key: string, fails: bool): (r: Reply)
    ensures r.Nil? <==> !fails && key !in st.keys
    ensures r.Failed? <==> fails || (key in st.keys && st.keys[key].Hash?)
    ensures !fails && key in st.keys && st.keys[key].Str? ==> r == Value(st.keys[key].text)
    ensures !fails && key in st.keys && st.keys[key].Counter? ==>
              r.Value? && Decimal.IsDigits(r.text) && Decimal.Parse(r.text) == st.keys[key].count
  {
    if fails then Failed
    else if key !in st.keys then Nil
    else match st.keys[key]
      case Str(s) => Value(s)
      case Counter(n) => Decimal.ParseRender(n); Value(Decimal.Render(n))
      case Hash(_) => Failed
  }

  /** SET: overwrites whatever the key held with a string. */
  function SetString(st: Store, key: string, value: string, fails: bool): (r: Written)
    ensures r.ok <==> !fails
    ensures r.ok ==> Get(r.store, key, false) == Value(value)
    ensures !r.ok ==> r.store == st
    ensures r.store.keys - {key} == st.keys - {key}
  {
    if fails then Written(st, false) else Written(Store(st.keys[key := Str(value)]), true)
  }

  /** HGET: one field of a hash; a missing key or field is Nil, a non-hash the wrong type. */
  function HGet(st: Store, key: string, field: string, fails: bool): (r: Reply)
    ensures r.Value? <==> !fails && HashField(st, key, field).Some?
    ensures r.Value? ==> r.text == HashField(st, key, field).value
  {
    if fails then Failed
    else if key !in st.keys then Nil
    else match st.keys[key]
      case Hash(f) => if field in f then Value(f[field]) else Nil
      case _ => Failed
  }

  /** HSET with one field/value pair: creates the hash if needed, the wrong type otherwise. */
  function HSet(st: Store, key: string, field: string, value: string, fails: bool): (r: Written)
    ensures r.ok <==> !fails && (key !in st.keys || st.keys[key].Hash?)
    ensures r.ok ==> HashField(r.store, key, field) == Some(value)
    ensures forall f :: f != field ==> HashField(r.store, key, f) == HashField(st, key, f)
    ensures !r.ok ==> r.store == st
    ensures r.store.keys - {key} == st.keys - {key}
  {
    if fails then Written(st, false)
    else if key !in st.keys then Written(Store(st.keys[key := Hash(map[field := value])]), true)
    else match st.keys[key]
      case Hash(f) => Written(Store(st.keys[key := Hash(f[field := value])]), true)
      case _ => Written(st, false)
  }

  /** Whether INCR on `key` can succeed: absent, or a counter below the 64-bit maximum. */
  predicate CanIncrement(st: Store, key: string) {
    key !in st.keys || (st.keys[key].Counter? && st.keys[key].count < Int64Max)
  }

  /** INCR: an absent key starts from zero; any refusal leaves the store as it was. */
  function Incr(st: Store, key: string, fails: bool): (r: Written)
    ensures r.ok <==> !fails && CanIncrement(st, key)
    ensures r.ok ==> key in r.store.keys && r.store.keys[key].Counter?
    ensures r.ok ==> CountAt(r.store, key) == CountAt(st, key) + 1
    ensures !r.ok ==> r.store == st
    ensures r.store.keys - {key} == st.keys - {key}
  {
    if fails then Written(st, false)
    else if key !in st.keys then Written(Store(st.keys[key := Counter(1)]), true)
    else match st.keys[key]
      case Counter(n) =>
        if n < Int64Max then Written(Store(st.keys[key := Counter(n + 1)]), true) else Written(st, false)
      case _ => Written(st, false)
  }

  /** What a GET reports after a successful INCR reads back as one more than before. */
  lemma IncrThenGet(st: Store, key: string)
    requires CanIncrement(st, key)
    ensures var after := Get(Incr(st, key, false).store, key, false);
      after.Value? && Decimal.IsDigits(after.text) && Decimal.Parse(after.text) == CountAt(st, key) + 1
  {
  }
}

=== FILE: query.dfy ===
/**
 * Appending a request's raw query string to a redirect target, and an
 * independent reading of a URL as a path and an optional query (split at its
 * first '?') against which the merge is checked.
 */
module Query {
  import opened Wrappers

  /** Index of the first `c` in `s`, or `|s|` when there is none. */
  function Find(s: string, c: char): (r: nat)
    ensures r <= |s|
    ensures r < |s| ==> s[r] == c
    ensures forall j :: 0 <= j < r ==> s[j] != c
    ensures r == |s| <==> c !in s
  {
    if s == [] then 0 else if s[0] == c then 0 else 1 + Find(s[1..], c)
  }

  /** Searching a concatenation finds the first occurrence in the left part if there is one. */
  lemma {:induction false} FindAppend(s: string, t: string, c: char)
    ensures Find(s + t, c) == if c in s then Find(s, c) else |s| + Find(t, c)
  {
    if s == [] {
      assert s + t == t;
    } else if s[0] != c {
      assert (s + t)[1..] == s[1..] + t;
      assert c in s <==> c in s[1..];
      FindAppend(s[1..], t, c);
    }
  }

  /** Everything before the first '?'. */
  function Path(url: string): string {
    url[..Find(url, '?')]
  }

  /** Everything after the first '?', if the URL has one. */
  function QueryPart(url: string): Option<string> {
    var i := Find(url, '?');
    if i < |url| then Some(url[i + 1..]) else None
  }

  /**
   * The redirect target with the raw query appended: joined with '&' when the
   * target already has a '?', with '?' otherwise; an empty query changes nothing.
   */
  function MergeQuery(target: string, rawQuery: string): (r: string)
    ensures target <= r
    ensures |r| == |target| + (if rawQuery == "" then 0 else 1 + |rawQuery|)
    ensures r == target <==> rawQuery == ""
    ensures rawQuery != "" ==> r[|r| - |rawQuery|..] == rawQuery
  {
    if rawQuery == "" then target
    else if '?' in target then target + "&" + rawQuery
    else target + "?" + rawQuery
  }

  /**
   * Merging keeps the path and extends the query: the raw query becomes the
   * whole query of a target without one, and is added after '&' to an
   * existing one.
   */
  lemma MergeQuerySplits(target: string, rawQuery: string)
    ensures Path(MergeQuery(target, rawQuery)) == Path(target)
    ensures QueryPart(MergeQuery(target, rawQuery)) ==
      if rawQuery == "" then QueryPart(target)
      else if QueryPart(target).Some? then Some(QueryPart(target).value + "&" + rawQuery)
      else Some(rawQuery)
  {
    if rawQuery != "" {
      var sep := if '?' in target then "&" else "?";
      var u := target + sep + rawQuery;
      assert u == target + (sep + rawQuery);
      FindAppend(target, sep + rawQuery, '?');
      var i := Find(target, '?');
      if '?' in target {
        assert u[..i] == target[..i];
        assert u[i + 1..] == target[i + 1..] + "&" + rawQuery;
      } else {
        assert Find(sep + rawQuery, '?') == 0;
        assert u[..i] == target;
        assert u[i + 1..] == rawQuery;
      }
    }
  }

  /** A target without a query, and one that already has one. */
  lemma MergeQueryExamples()
    ensures MergeQuery("http://h/p", "x=1") == "http://h/p?x=1"
    ensures MergeQuery("http://h/p?y=2", "x=1") == "http://h/p?y=2&x=1"
  {
    assert "http://h/p"[9] == 'p';
    assert forall j :: 0 <= j < |"http://h/p"| ==> "http://h/p"[j] != '?';
    assert "http://h/p?y=2"[10] == '?';
  }
}

=== FILE: service.dfy ===
/**
 * The resolution service as the handlers are written: Shorten, Redirect and
 * Stats as pure transitions of a world made of the store, the local cache and
 * the clock. Each store call takes its own failure flag; the fresh UUID text is
 * an input and the MD5 digest is the uninterpreted `md5` of the environment.
 */
module Service {
  import opened Wrappers
  import opened LinkStore
  import opened Query
  import AutoDeleteMap
  import Decimal

  /** Length of the canonical text of a UUID, from which fresh codes are cut. */
  const UuidLength: nat := 36

  /** Startup configuration: base website, code length, cache time-to-live, and the digest. */
  datatype Env = Env(website: string, codeLength: nat, cacheTtl: int, md5: string -> string)

  datatype World = World(store: Store, cache: AutoDeleteMap.Cache, now: int)

  /** The clock moves to `t`, running every cache deletion due by then. */
  function Advance(w: World, t: int): (r: World)
    requires w.now <= t
    ensures r.store == w.store && r.now == t
    ensures r.cache.entries == w.cache.entries - AutoDeleteMap.DueKeys(w.cache.pending, t)
    ensures r.cache.pending == AutoDeleteMap.Waiting(w.cache.pending, t)
  {
    World(w.store, AutoDeleteMap.Expire(w.cache, t), t)
  }

  // ---------------------------------------------------------------- codes

  datatype Generated = Generated(code: string, isNew: bool)

  /**
   * The code recorded in the link index for the URL's digest is reused; when
   * the lookup does not produce one, for whatever reason, a fresh code of the
   * configured length is cut from the UUID.
   */
  function GenerateShortCode(env: Env, st: Store, longUrl: string, uuid: string, lookupFails: bool): (r: Generated)
    requires |uuid| == UuidLength && env.codeLength <= UuidLength
    ensures !r.isNew <==> !lookupFails && HashField(st, LinkIndexKey, env.md5(longUrl)).Some?
    ensures !r.isNew ==> r.code == HashField(st, LinkIndexKey, env.md5(longUrl)).value
    ensures r.isNew ==> r.code == uuid[..env.codeLength] && |r.code| == env.codeLength
  {
    var freshCode := uuid[..env.codeLength];
    var reply := HGet(st, LinkIndexKey, env.md5(longUrl), lookupFails);
    if reply.Value? then Generated(reply.text, false) else Generated(freshCode, true)
  }

  // ---------------------------------------------------------------- shorten

  datatype ShortenRequest = ShortenRequest(longUrl: string, diyDomain: string)

  datatype ShortenResponse =
    | Shortened(shortUrl: string)
    | BadRequest
    | SaveMappingFailed
    | SaveIndexFailed

  datatype Shortening = Shortening(world: World, response: ShortenResponse)

  /** The short URL handed back: under the custom domain when one is given, else the base website. */
  function ResultUrl(env: Env, req: ShortenRequest, code: string): (r: string)
    ensures |r| == |code| + 1 + |if req.diyDomain == "" then env.website else req.diyDomain|
    ensures r[..|r| - |code| - 1] == (if req.diyDomain == "" then env.website else req.diyDomain)
    ensures r[|r| - |code| - 1] == '/' && r[|r| - |code|..] == code
  {
    (if req.diyDomain == "" then env.website else req.diyDomain) + "/" + code
  }

  /**
   * POST /shorten. An empty long URL is rejected. A reused code writes
   * nothing. A fresh code is written to the store (failure: nothing else
   * happens), then to the cache, then the index call is made. That call names
   * the `short:link` hash and the long URL but no field/value pair; the client
   * library sends it unchanged and the server refuses an HSET with fewer than
   * one pair for its arity, so it records nothing and always fails: the mapping
   * and the cache entry stay, and the answer is SaveIndexFailed.
   */
  function Shorten(env: Env, w: World, req: ShortenRequest, uuid: string,
                   lookupFails: bool, saveFails: bool): (r: Shortening)
    requires |uuid| == UuidLength && env.codeLength <= UuidLength
    ensures r.response.BadRequest? <==> req.longUrl == ""
    ensures req.longUrl == "" ==> r.world == w
    ensures r.world.now == w.now
    ensures var g := GenerateShortCode(env, w.store, req.longUrl, uuid, lookupFails);
      req.longUrl != "" && !g.isNew ==> r.world == w && r.response == Shortened(ResultUrl(env, req, g.code))
    ensures var g := GenerateShortCode(env, w.store, req.longUrl, uuid, lookupFails);
      req.longUrl != "" && g.isNew && saveFails ==> r.world == w && r.response == SaveMappingFailed
    ensures var g := GenerateShortCode(env, w.store, req.longUrl, uuid, lookupFails);
      req.longUrl != "" && g.isNew && !saveFails ==>
        && Get(r.world.store, MappingKey(g.code), false) == Value(req.longUrl)
        && r.world.store.keys - {MappingKey(g.code)} == w.store.keys - {MappingKey(g.code)}
        && AutoDeleteMap.Load(r.world.cache, g.code) == Some(req.longUrl)
        && (forall k :: k != g.code ==> AutoDeleteMap.Load(r.world.cache, k) == AutoDeleteMap.Load(w.cache, k))
        && r.world.cache.pending == w.cache.pending + [AutoDeleteMap.Pending(g.code, w.now + env.cacheTtl)]
        && r.response == SaveIndexFailed
  {
    if req.longUrl == "" then Shortening(w, BadRequest)
    else
      var g := GenerateShortCode(env, w.store, req.longUrl, uuid, lookupFails);
      if !g.isNew then Shortening(w, Shortened(ResultUrl(env, req, g.code)))
      else
        var saved := SetString(w.store, MappingKey(g.code), req.longUrl, saveFails);
        if !saved.ok then Shortening(w, SaveMappingFailed)
        else
          var cache := AutoDeleteMap.Set(w.cache, g.code, req.longUrl, w.now, env.cacheTtl);
          Shortening(World(saved.store, cache, w.now), SaveIndexFailed)
  }

  // ---------------------------------------------------------------- redirect

  datatype Redirection = Redirection(world: World, location: string)

  /**
   * GET /:shortCode. A cached target is used as it is. On a cache miss the
   * store is read, and whatever the read yields, the empty string when the
   * key is missing or the read fails, becomes the target and is cached. The
   * raw query is merged in and the visit counter is bumped; the counter's
   * fate never changes the answer.
   */
  function Redirect(env: Env, w: World, code: string, rawQuery: string,
                    lookupFails: bool, incrFails: bool): (r: Redirection)
    ensures r.world.now == w.now
    ensures r.world.store.keys - {CounterKey(code)} == w.store.keys - {CounterKey(code)}
    ensures CountAt(r.world.store, CounterKey(code)) ==
      CountAt(w.store, CounterKey(code)) + (if !incrFails && CanIncrement(w.store, CounterKey(code)) then 1 else 0)
    ensures incrFails || !CanIncrement(w.store, CounterKey(code)) ==> r.world.store == w.store
    ensures AutoDeleteMap.Load(w.cache, code).Some? ==>
      && r.world.cache == w.cache
      && r.location == MergeQuery(AutoDeleteMap.Load(w.cache, code).value, rawQuery)
    ensures AutoDeleteMap.Load(w.cache, code).None? ==>
      var target := Text(Get(w.store, MappingKey(code), lookupFails));
      && AutoDeleteMap.Load(r.world.cache, code) == Some(target)
      && (forall k :: k != code ==> AutoDeleteMap.Load(r.world.cache, k) == AutoDeleteMap.Load(w.cache, k))
      && r.world.cache.pending == w.cache.pending + [AutoDeleteMap.Pending(code, w.now + env.cacheTtl)]
      && r.location == MergeQuery(target, rawQuery)
  {
    var (target, cache) :=
      match AutoDeleteMap.Load(w.cache, code)
      case Some(v) => (v, w.cache)
      case None =>
        var v := Text(Get(w.store, MappingKey(code), lookupFails));
        (v, AutoDeleteMap.Set(w.cache, code, v, w.now, env.cacheTtl));
    var location := MergeQuery(target, rawQuery);
    var counted := Incr(w.store, CounterKey(code), incrFails);
    Redirection(World(counted.store, cache, w.now), location)
  }

  // ---------------------------------------------------------------- stats

  datatype StatsResponse =
    | StatsOk(shortUrl: string, longUrl: string, visitCount: string)
    | NotFound
    | LookupFailed
    | CountFailed

  /**
   * GET /stats/:shortCode. A missing mapping is NotFound, a failed read an
   * error; otherwise the visit count is read from the `stats:` key, "0" when
   * that key is missing.
   */
  function Stats(env: Env, st: Store, code: string, lookupFails: bool, countFails: bool): (r: StatsResponse)
    ensures r.NotFound? <==> !lookupFails && MappingKey(code) !in st.keys
    ensures r.LookupFailed? <==> Get(st, MappingKey(code), lookupFails).Failed?
    ensures r.StatsOk? <==> Get(st, MappingKey(code), lookupFails).Value? && !Get(st, StatsKey(code), countFails).Failed?
    ensures r.StatsOk? ==>
      && r.shortUrl == env.website + "/" + code
      && Get(st, MappingKey(code), false) == Value(r.longUrl)
      && r.visitCount == (if StatsKey(code) in st.keys then Text(Get(st, StatsKey(code), false)) else "0")
  {
    match Get(st, MappingKey(code), lookupFails)
    case Nil => NotFound
    case Failed => LookupFailed
    case Value(longUrl) =>
      match Get(st, StatsKey(code), countFails)
      case Failed => CountFailed
      case Nil => StatsOk(env.website + "/" + code, longUrl, "0")
      case Value(count) => StatsOk(env.website + "/" + code, longUrl, count)
  }

  /** The count Stats reports is the counter's value; an absent counter reads as zero. */
  lemma StatsReportsCounter(env: Env, st: Store, code: string)
    requires MappingKey(code) in st.keys && st.keys[MappingKey(code)].Str?
    requires StatsKey(code) !in st.keys || st.keys[StatsKey(code)].Counter?
    ensures var r := Stats(env, st, code, false, false);
      r.StatsOk? && r.visitCount == Decimal.Render(CountAt(st, StatsKey(code)))
  {
  }

  // ---------------------------------------------------------------- properties across calls

  /** On a cache miss, a stored mapping is what the redirect goes to and what gets cached. */
  lemma RedirectMissUsesMapping(env: Env, w: World, code: string, rawQuery: string, incrFails: bool)
    requires AutoDeleteMap.Load(w.cache, code).None?
    requires MappingKey(code) in w.store.keys && w.store.keys[MappingKey(code)].Str?
    ensures var r := Redirect(env, w, code, rawQuery, false, incrFails);
      var longUrl := w.store.keys[MappingKey(code)].text;
      && r.location == MergeQuery(longUrl, rawQuery)
      && AutoDeleteMap.Load(r.world.cache, code) == Some(longUrl)
  {
  }

  /** Whether the visit counter could be bumped never changes the target or the cache. */
  lemma RedirectIgnoresCounterFailure(env: Env, w: World, code: string, rawQuery: string, lookupFails: bool)
    ensures var failed := Redirect(env, w, code, rawQuery, lookupFails, true);
      var counted := Redirect(env, w, code, rawQuery, lookupFails, false);
      && failed.location == counted.location
      && failed.world.cache == counted.world.cache
      && failed.world.store == w.store
  {
  }

  /**
   * A link created with a fresh code resolves to its long URL at any later
   * time, whether the cache entry has expired or not, as long as the store can
   * be read.
   */
  lemma ShortenThenRedirect(env: Env, w: World, req: ShortenRequest, uuid: string,
                            lookupFails: bool, t: int, incrFails: bool)
    requires |uuid| == UuidLength && env.codeLength <= UuidLength
    requires req.longUrl != "" && w.now <= t
    requires GenerateShortCode(env, w.store, req.longUrl, uuid, lookupFails).isNew
    ensures var code := GenerateShortCode(env, w.store, req.longUrl, uuid, lookupFails).code;
      var later := Advance(Shorten(env, w, req, uuid, lookupFails, false).world, t);
      Redirect(env, later, code, "", false, incrFails).location == req.longUrl
  {
  }

  /**
   * A failed store read on a cache miss is cached as the empty target: until
   * that entry expires, the code redirects to the bare query even though the
   * store may hold a mapping for it.
   */
  lemma RedirectFailureIsCached(env: Env, w: World, code: string, rawQuery: string,
                                incr1: bool, lookupFails2: bool, incr2: bool)
    requires AutoDeleteMap.Load(w.cache, code).None?
    ensures var first := Redirect(env, w, code, "", true, incr1);
      && first.location == ""
      && Redirect(env, first.world, code, rawQuery, lookupFails2, incr2).location == MergeQuery("", rawQuery)
  {
  }

  /** Redirects of one code, one per raw query, with no store failures. */
  function RedirectAll(env: Env, w: World, code: string, queries: seq<string>): World
    decreases |queries|
  {
    if queries == [] then w
    else RedirectAll(env, Redirect(env, w, code, queries[0], false, false).world, code, queries[1..])
  }

  /** N redirects without failures raise the code's counter by exactly N. */
  lemma {:induction false} RedirectsAreCounted(env: Env, w: World, code: string, queries: seq<string>)
    requires CounterKey(code) !in w.store.keys || w.store.keys[CounterKey(code)].Counter?
    requires CountAt(w.store, CounterKey(code)) + |queries| <= Int64Max
    ensures CountAt(RedirectAll(env, w, code, queries).store, CounterKey(code))
              == CountAt(w.store, CounterKey(code)) + |queries|
    ensures RedirectAll(env, w, code, queries).store.keys - {CounterKey(code)}
              == w.store.keys - {CounterKey(code)}
    ensures var after := RedirectAll(env, w, code, queries).store;
      CounterKey(code) !in after.keys || after.keys[CounterKey(code)].Counter?
    decreases |queries|
  {
    if queries != [] {
      var w1 := Redirect(env, w, code, queries[0], false, false).world;
      assert CanIncrement(w.store, CounterKey(code));
      RedirectsAreCounted(env, w1, code, queries[1..]);
    }
  }

  /**
   * Right after a link is created with a fresh code, its statistics show the
   * long URL, the short URL under the base website, and the count already
   * stored under the `stats:` key ("0" when there is none).
   */
  lemma StatsAfterShorten(env: Env, w: World, req: ShortenRequest, uuid: string,
                          lookupFails: bool)
    requires |uuid| == UuidLength && env.codeLength <= UuidLength
    requires req.longUrl != ""
    requires GenerateShortCode(env, w.store, req.longUrl, uuid, lookupFails).isNew
    requires var code := GenerateShortCode(env, w.store, req.longUrl, uuid, lookupFails).code;
      StatsKey(code) !in w.store.keys || w.store.keys[StatsKey(code)].Counter?
    ensures var code := GenerateShortCode(env, w.store, req.longUrl, uuid, lookupFails).code;
      var after := Shorten(env, w, req, uuid, lookupFails, false).world;
      Stats(env, after.store, code, false, false)
        == StatsOk(env.website + "/" + code, req.longUrl, Decimal.Render(CountAt(w.store, StatsKey(code))))
  {
  }

  // ---------------------------------------------------------------- the code as written

  /**
   * The index call names the hash but gives no field/value pair, so no
   * Shorten, whatever happens, ever records a digest-to-code entry.
   */
  lemma ShortenNeverIndexes(env: Env, w: World, req: ShortenRequest, uuid: string,
                            lookupFails: bool, saveFails: bool, digest: string)
    requires |uuid| == UuidLength && env.codeLength <= UuidLength
    ensures var r := Shorten(env, w, req, uuid, lookupFails, saveFails);
      HashField(r.world.store, LinkIndexKey, digest) == HashField(w.store, LinkIndexKey, digest)
  {
  }

  /**
   * Hence shortening the same URL twice, when the index has nothing for it,
   * draws a fresh code each time: both answers are errors, yet the URL ends up
   * stored under two different codes, and a third request would draw a third.
   */
  lemma RepeatedShortenGetsFreshCodes(env: Env, w: World, req: ShortenRequest, uuid1: string, uuid2: string)
    requires |uuid1| == UuidLength && |uuid2| == UuidLength && env.codeLength <= UuidLength
    requires req.longUrl != ""
    requires HashField(w.store, LinkIndexKey, env.md5(req.longUrl)).None?
    requires uuid1[..env.codeLength] != uuid2[..env.codeLength]
    ensures var first := Shorten(env, w, req, uuid1, false, false);
      var second := Shorten(env, first.world, req, uuid2, false, false);
      var c1, c2 := uuid1[..env.codeLength], uuid2[..env.codeLength];
      && GenerateShortCode(env, first.world.store, req.longUrl, uuid2, false) == Generated(c2, true)
      && first.response == SaveIndexFailed && second.response == SaveIndexFailed
      && MappingKey(c1) != MappingKey(c2)
      && Get(second.world.store, MappingKey(c1), false) == Value(req.longUrl)
      && Get(second.world.store, MappingKey(c2), false) == Value(req.longUrl)
      && HashField(second.world.store, LinkIndexKey, env.md5(req.longUrl)).None?
  {
    var c1, c2 := uuid1[..env.codeLength], uuid2[..env.codeLength];
    var first := Shorten(env, w, req, uuid1, false, false);
    ShortenNeverIndexes(env, w, req, uuid1, false, false, env.md5(req.longUrl));
    ShortenNeverIndexes(env, first.world, req, uuid2, false, false, env.md5(req.longUrl));
    KeysInjective(c1, c2);
  }

  /**
   * The fallback written before the lookup is overwritten by the lookup's
   * result: a code neither cached nor stored redirects to the bare query, and
   * the empty target is cached for it.
   */
  lemma RedirectUnknownCodeGoesNowhere(env: Env, w: World, code: string, rawQuery: string, incrFails: bool)
    requires AutoDeleteMap.Load(w.cache, code).None? && MappingKey(code) !in w.store.keys
    ensures var r := Redirect(env, w, code, rawQuery, false, incrFails);
      && r.location == MergeQuery("", rawQuery)
      && AutoDeleteMap.Load(r.world.cache, code) == Some("")
  {
  }

  /**
   * Redirects count under `short:stats:` and Stats reads `stats:`, so no
   * redirect of any code ever changes any Stats answer.
   */
  lemma StatsIgnoresRedirects(env: Env, w: World, code: string, rawQuery: string, lookupFails: bool,
                              incrFails: bool, asked: string, statsLookupFails: bool, countFails: bool)
    ensures var r := Redirect(env, w, code, rawQuery, lookupFails, incrFails);
      Stats(env, r.world.store, asked, statsLookupFails, countFails)
        == Stats(env, w.store, asked, statsLookupFails, countFails)
  {
    var r := Redirect(env, w, code, rawQuery, lookupFails, incrFails);
    KeyFamiliesDisjoint(asked, code);
    KeyFamiliesDisjoint(code, asked);
    assert (MappingKey(asked) in r.world.store.keys) == (MappingKey(asked) in w.store.keys);
    assert (StatsKey(asked) in r.world.store.keys) == (StatsKey(asked) in w.store.keys);
    if MappingKey(asked) in w.store.keys {
      assert r.world.store.keys[MappingKey(asked)] == w.store.keys[MappingKey(asked)];
    }
    if StatsKey(asked) in w.store.keys {
      assert r.world.store.keys[StatsKey(asked)] == w.store.keys[StatsKey(asked)];
    }
  }
}

=== FILE: wrappers.dfy ===
/** Optional values, used for lookups that may miss. */
module Wrappers {

  datatype Option<+T> = None | Some(value: T)
}
